=== FILE: README.md ===
# Sort orders of maf-lib, verified

A Dafny model of the sort-order subsystem of maf-lib, the Python library for
reading, validating and writing MAF (mutation annotation format) records.
The subsystem has four parts:

- the registry of named orderings `Unknown`, `Unsorted`,
  `BarcodesAndCoordinate` and `Coordinate`, with lookup by exact name;
- the null-aware three-way compare. Sort keys are built from it: a
  coordinate key (chromosome, start, end), where the chromosome is ranked by
  an optional contig list, and a barcodes key (tumor barcode, normal
  barcode, coordinate key);
- the `SortOrderChecker`, which remembers the previous record and rejects a
  record whose key is strictly below that record's key;
- the `SortOrderEnforcingIterator`, which passes a record sequence through
  the checker unchanged.

Modules, leaf to root:

| file | module | models |
|---|---|---|
| `wrappers.dfy` | `Wrappers` | `Option` (Python's `None` or a value) and `Result` (a value or a raised error) |
| `text.dfy` | `Text` | Python's `<` on `str`, `", ".join`, and substring containment |
| `comparison.dfy` | `Comparison` | `SortOrderKey.compare` |
| `keys.dfy` | `Keys` | `_CoordinateKey`, `_BarcodesAndCoordinateKey`, `__lt__`, `__eq__` |
| `sort_order.dfy` | `SortOrders` | records, errors, the registry, `Coordinate.__init__`, contig ranking, `sort_key()` |
| `checker.dfy` | `Checking` | `SortOrderChecker` and `SortOrderEnforcingIterator` |

Each compare function is checked against a separate definition of the order
it claims to compute:

- `CoordinateBefore` is the lexicographic order on (chromosome, start, end).
- `KeyBefore` is the barcodes-then-coordinate order, with nulls last.
- `NullsLast` is the order on nullable values.

The checker is then tied to those orders. A caller may also catch an
order violation and pull again. The rejected record is then lost, because
`__next__` has already taken it, and the next record is checked against
the last accepted one, because `add` raised before storing the rejected
record. `FeedResuming` models this, and `ResumingStep` gives its law one
record at a time. When every record has a key, the records such a caller
receives are still sorted. Under a keyed ordering, and when every record
has a key, the iterator yields the whole input exactly when the keys
never step down.
Otherwise it stops at the first step down. A fully accepted sequence is
sorted globally, not only between neighbours.

Behaviour of the code that is easy to misread:

- When both a FASTA index and a contig list are given, the index wins.
  `Instantiate` models this. It is not treated as a configuration error.
- An empty contig list, or an index file with no lines, means "no list":
  chromosomes then compare by name. The code tests the list's truthiness.
  `Ranked` models this.
- The contig list is not deduplicated. A chromosome's rank is the position
  of its first occurrence.
- The checker never derives a key for the first record. So an unknown contig
  on the first record is only reported by the second `add`. The error then
  names the first record's chromosome if the second record's chromosome
  resolves. `PairCheck` models this: the current record's key is derived
  first, then the previous record's.

## Model

| member | source | states |
|---|---|---|
| Comparison.Compare | src/maflib/sort_order.py:75-86 | the result is -1, 0 or 1. Two nulls give 0, null against a value gives 1, a value against null gives -1. Under a strict total order the result is negative, zero or positive exactly when the first operand sorts before, equals or sorts after the second, nulls last |
| Comparison.CompareAntisymmetric | src/maflib/sort_order.py:75-86 | swapping the operands negates the result, for any underlying order |
| Comparison.NullsLastTransitive | src/maflib/sort_order.py:79-86 | the nulls-last order is transitive when the order on values is |
| Text.LessIrreflexive | src/maflib/sort_order.py:86 | no string sorts before itself under Python's string order |
| Text.LessTransitive | src/maflib/sort_order.py:86 | Python's string order is transitive |
| Text.LessConnected | src/maflib/sort_order.py:86 | of two distinct strings, one sorts before the other |
| Text.ProperPrefixIsLess | src/maflib/sort_order.py:86 | a proper prefix sorts before the longer string |
| Text.JoinContainsEach | src/maflib/sort_order.py:46 | each part of a `", ".join` can be found in the joined text |
| Keys.TextLessIsStrictTotal | src/maflib/sort_order.py:203-205 | barcodes, compared as Python strings, are strictly totally ordered |
| Keys.ChromLessIsStrictTotal | src/maflib/sort_order.py:144 | chromosome keys (ranks or names) are strictly totally ordered |
| Keys.CompareCoordinates | src/maflib/sort_order.py:143-149 | the compare is negative, zero or positive exactly when the first key is lexicographically before, equal to or after the second on (chromosome, start, end) |
| Keys.ChromosomeDecides | src/maflib/sort_order.py:143-149 | different chromosomes give a non-zero result that no change of start or end alters |
| Keys.StartThenEnd | src/maflib/sort_order.py:145-148 | with equal chromosomes the start decides, and with equal starts too the end decides |
| Keys.KeyCompare | src/maflib/sort_order.py:202-208 | for two keys of one kind, the result is negative, zero or positive exactly as the barcodes-then-coordinate order puts them (null barcodes last) |
| Keys.BarcodesFirst | src/maflib/sort_order.py:202-208 | a differing tumor barcode decides alone, then a differing normal barcode. Only when both are equal (both null included) is the result the coordinate compare |
| Keys.KeyLess | src/maflib/sort_order.py:62-64 | `<` on keys holds exactly when the first key sorts strictly before the second |
| Keys.KeyEqual | src/maflib/sort_order.py:66-68 | `==` on keys holds exactly when the keys are identical |
| Keys.CoordinateBeforeTransitive | src/maflib/sort_order.py:143-149 | the coordinate order is transitive |
| Keys.KeyBeforeIrreflexiveConnected | src/maflib/sort_order.py:55-68 | the key order is irreflexive, asymmetric and connected on keys of one kind |
| Keys.BarcodesBeforeTransitive | src/maflib/sort_order.py:202-208 | the barcodes-then-coordinate order is transitive |
| Keys.KeyBeforeTransitive | src/maflib/sort_order.py:55-68 | the key order is transitive on keys of one kind |
| Keys.NotBeforeTransitive | src/maflib/sort_order.py:55-68 | "not before" chains: if b is not before a and c not before b, then c is not before a |
| SortOrders.Message | src/maflib/sort_order.py:47 | the opening words of an error text tell its kind: the lookup failure here, "Sorting not supported for" at lines 103 and 121, the missing contig at 138-139 and the order violation at 258-259, each present exactly for its own kind |
| SortOrders.Name | src/maflib/sort_order.py:96-98 | a variant's `name()` is a Python class name, a non-empty run of ASCII letters starting with a capital, as at 114-116, 181-183 and 222-225 too |
| SortOrders.All | src/maflib/sort_order.py:29-37 | `all()` lists four variants, no two under the same name |
| SortOrders.AllRegistered | src/maflib/sort_order.py:30-37 | every variant is registered, and no two variants share a name |
| SortOrders.NamesOf | src/maflib/sort_order.py:46 | the name list has one entry per variant, in registry order |
| SortOrders.FirstNamed | src/maflib/sort_order.py:43-44 | the search returns the first registered variant with the requested name (no earlier one has it), or reports that none has it |
| SortOrders.Find | src/maflib/sort_order.py:40-49 | lookup succeeds exactly when some variant has the name, and returns a variant with that exact name. Otherwise the error carries the name and the full list of registered names |
| SortOrders.FindByName | src/maflib/sort_order.py:40-49 | every variant is found again under its own name |
| SortOrders.UnknownOrderingMessage | src/maflib/sort_order.py:47 | the lookup failure's text contains the requested name and every listed option |
| SortOrders.FindFailureListsNames | src/maflib/sort_order.py:45-48 | a failed lookup's message contains the requested name and every registered name |
| SortOrders.IndexLineContig | src/maflib/sort_order.py:170-173 | the contig read from an index line is a tab-free prefix of the line, cut at the first tab or at the trailing CR/LF |
| SortOrders.StripLineEnd | src/maflib/sort_order.py:172 | the result is the longest prefix of the line that does not end in CR or LF, and only CR and LF were dropped |
| SortOrders.BeforeTab | src/maflib/sort_order.py:172 | the result is the prefix up to the first tab, or the whole text when there is no tab |
| SortOrders.BeforeTabOfField | src/maflib/sort_order.py:172 | a tab-free field followed by a tab is what the first column yields |
| SortOrders.StripLineEndOf | src/maflib/sort_order.py:172 | stripping gives back the text before any run of trailing CR/LF |
| SortOrders.IndexLineRoundTrip | src/maflib/sort_order.py:169-173 | a line written as name, tab, other columns reads back as the name |
| SortOrders.IndexLineSingleColumn | src/maflib/sort_order.py:169-173 | a single-column line with any CR/LF ending reads back as the name |
| SortOrders.Instantiate | src/maflib/sort_order.py:160-178 | Unknown and Unsorted keep no contig list. Given an index, the contig list is the index's first column, line for line. Otherwise the explicit list is kept when it is non-empty, and dropped when empty |
| SortOrders.IndexOf | src/maflib/sort_order.py:135 | the rank is the position of the first occurrence of the name |
| SortOrders.ResolveChromosome | src/maflib/sort_order.py:132-140 | without a non-empty list the chromosome stays a name. With one, it resolves exactly when listed, to its first-occurrence rank, and otherwise fails naming the chromosome and the list |
| SortOrders.SortKeyOf | src/maflib/sort_order.py:185-234 | Unknown and Unsorted give "not supported". Coordinate orders give a key exactly when the chromosome resolves, and the key carries the resolved chromosome, start and end. Only BarcodesAndCoordinate adds the two barcodes |
| SortOrders.EarlierContigFirst | src/maflib/sort_order.py:133-140 | under a contig list, a record on an earlier contig compares -1 against one on a later contig, whatever their starts and ends |
| SortOrders.UnknownContigMessage | src/maflib/sort_order.py:136-140 | a chromosome missing from the list fails with a message containing it and every listed contig |
| Checking.NewChecker | src/maflib/sort_order.py:240-246 | a new checker holds no record. It has a key function exactly when the ordering provides one |
| Checking.PairCheck | src/maflib/sort_order.py:254-259 | a key error is reported first for the current record, then for the previous one. With both keys, the check fails exactly when the current key is strictly before the previous one, and the error names both records |
| Checking.Add | src/maflib/sort_order.py:253-261 | with no previous record or no key function, `add` always accepts. Otherwise it accepts exactly when the (previous, current) pair passes, and a rejection is that pair's error. On acceptance the record becomes the previous one and nothing else changes |
| Checking.AddAcceptsEqualKey | src/maflib/sort_order.py:257 | a record whose key equals the previous key is accepted |
| Checking.OutOfOrderMessageShowsBoth | src/maflib/sort_order.py:258-259 | the order-violation message contains both records' string forms |
| Checking.Enforce | src/maflib/sort_order.py:271-285 | the enforcing iterator yields a prefix of its input, and it always yields the first record, because that record is never compared |
| Checking.Feed | src/maflib/sort_order.py:282-285 | what is yielded is an unchanged prefix of the input, and it is the whole input exactly when no error was raised |
| Checking.FeedUnkeyed | src/maflib/sort_order.py:253-261 | a checker without a key function accepts every sequence whole |
| Checking.EnforceUnkeyed | src/maflib/sort_order.py:242-246 | under Unknown and Unsorted the iterator yields every input, in any order, and never fails |
| Checking.AdjacentOkCons | src/maflib/sort_order.py:253-261 | a sequence with one more record in front passes exactly when its first pair and the rest pass |
| Checking.FeedFrom | src/maflib/sort_order.py:282-285 | a keyed checker that holds a record runs to the end exactly when every adjacent pair passes, and otherwise stops at the first failing pair with that pair's error |
| Checking.EnforceFirstFailure | src/maflib/sort_order.py:271-285 | under a keyed ordering the iterator yields the whole input exactly when every adjacent pair passes. Otherwise it has yielded a non-empty unchanged prefix whose pairs all pass, and it fails on the next element with that pair's error |
| Checking.EnforceSorted | src/maflib/sort_order.py:253-261 | when every record has a key, the iterator accepts everything exactly when the keys never step down. Otherwise it stops at the first step down with an order violation naming that pair |
| Checking.AdjacentToGlobal | src/maflib/sort_order.py:253-261 | keys that never step down between neighbours are sorted across the whole sequence |
| Checking.AcceptedIsSorted | src/maflib/sort_order.py:271-285 | a fully accepted sequence is sorted: no later record's key is below an earlier one's |
| Checking.FeedResuming | src/maflib/sort_order.py:253-285 | a caller who resumes after each error gets a subsequence of the input, in input order, with one error reported for each record left out, and the whole input when nothing was reported |
| Checking.ResumingStep | src/maflib/sort_order.py:257-260 | each further record is checked against the last record kept so far, never a rejected one. It is appended to the output when it passes, and its own error is appended to the errors when it does not |
| Checking.ResumingExtendsFeed | src/maflib/sort_order.py:282-285 | up to the first error, resuming and stopping agree: the stopping output starts the resuming output, and the first reported error is the one the stopping iterator raises |
| Checking.NonDecreasingCons | src/maflib/sort_order.py:253-261 | a record put in front of a key sequence keeps it non-decreasing exactly when its key is not above the first one's |
| Checking.ResumingSortedFrom | src/maflib/sort_order.py:253-261 | a rejected record leaves the stored previous record in place, so everything a resuming caller gets chains non-decreasingly from that record |
| Checking.ResumingYieldsSorted | src/maflib/sort_order.py:253-285 | when every record has a key, the records a resuming caller gets are sorted from first to last |

## Left out

- Reading the FASTA index file (`open`, line iteration, `close`) is file I/O. `Instantiate` takes the file's lines instead. Only the per-line step is modelled: strip CR/LF, take the first tab-separated column.
- The `issubclass(record.__class__, Locatable)` check and its error. Records here always carry a chromosome, a start and an end.
- The `isinstance(contigs, list)` assertion is a Python type check.
- The `__str__` of keys and of `SortOrder`, `__del__`, the `next` alias and the `abc`/`total_ordering` machinery are host-language plumbing.
- A record's own string form comes from outside this subsystem. `Message` takes it as the parameter `show`.
- The truthiness test on the previous record is modelled as the presence of an `Option`. A record that Python treats as false is not modelled.
- Keys.KeyCompare: requires both keys to be of one kind. One ordering only ever derives one kind. The code would compare a coordinate key with a barcodes key on coordinates alone, and fail the other way round.
- Keys.ChromLess: orders a rank before a name. One ordering never mixes ranks and names, so this choice only keeps the order total.
- Null chromosome, start or end values: record fields are non-null. Null handling is modelled on the barcodes, which can be missing.
- Infinite input sequences: the iterator is modelled over a finite sequence. `Feed` yields an unchanged prefix, and `EnforceFirstFailure` says where it stops, which covers every finite prefix of a stream.
- `src/maflib/tests/test_writer.py` exercises the file writer: temporary files, compression, captured output and stringency logging. None of that is part of this subsystem.

=== FILE: checker.dfy ===
/** The streaming order check: a checker that remembers the previous record,
    and the enforcing iterator that passes a sequence through it. */
module Checking {
  import opened Wrappers
  import opened Text
  import opened Keys
  import opened SortOrders

  /** `SortOrderChecker`: the previous record, and the ordering whose key
      function it applies (absent when the ordering has none). */
  datatype Checker = Checker(last: Option<Record>, keyed: Option<SortOrder>)

  /** A fresh checker: no previous record; Unknown and Unsorted leave it
      without a key function, which turns every check off. */
  function NewChecker(o: SortOrder): (c: Checker)
    ensures c.last.None?
    ensures c.keyed.Some? <==> HasKey(o.variant)
    ensures c.keyed.Some? ==> c.keyed.value == o
  {
    Checker(None, if HasKey(o.variant) then Some(o) else None)
  }

  predicate Resolves(o: SortOrder, rec: Record) {
    SortKeyOf(o, rec).Success?
  }

  function KeyOf(o: SortOrder, rec: Record): SortKey
    requires Resolves(o, rec)
  {
    SortKeyOf(o, rec).value
  }

  /** Every record of `s` has a key under `o`. */
  predicate AllResolve(o: SortOrder, s: seq<Record>) {
    forall i :: 0 <= i < |s| ==> Resolves(o, s[i])
  }

  /** What `add(rec)` raises when `prev` is stored and `o` supplies the keys:
      the key of `rec` is derived first, then that of `prev`, and `rec`
      is rejected only when its key is strictly less. */
  function PairCheck(o: SortOrder, prev: Record, rec: Record): (r: Option<SortError>)
    ensures !Resolves(o, rec) ==> r == Some(SortKeyOf(o, rec).error)
    ensures Resolves(o, rec) && !Resolves(o, prev) ==> r == Some(SortKeyOf(o, prev).error)
    ensures Resolves(o, rec) && Resolves(o, prev) ==>
      && (r.Some? <==> KeyBefore(SortKeyOf(o, rec).value, SortKeyOf(o, prev).value))
      && (r.Some? ==> r.value == OutOfOrder(prev, rec))
  {
    match SortKeyOf(o, rec)
    case Failure(e) => Some(e)
    case Success(recKey) =>
      match SortKeyOf(o, prev)
      case Failure(e) => Some(e)
      case Success(lastKey) => if KeyLess(recKey, lastKey) then Some(OutOfOrder(prev, rec)) else None
  }

  /** `SortOrderChecker.add`. With no previous record or no key function it
      only remembers `rec`; otherwise it fails as `PairCheck` says. On
      acceptance `rec` becomes the previous record and nothing else changes. */
  function Add(c: Checker, rec: Record): (r: Result<Checker, SortError>)
    ensures r.Success? ==> r.value == Checker(Some(rec), c.keyed)
    ensures c.last.None? || c.keyed.None? ==> r.Success?
    ensures c.last.Some? && c.keyed.Some? ==> (r.Success? <==> PairCheck(c.keyed.value, c.last.value, rec).None?)
    ensures r.Failure? ==> c.last.Some? && c.keyed.Some? && Some(r.error) == PairCheck(c.keyed.value, c.last.value, rec)
  {
    if c.last.Some? && c.keyed.Some? then
      match PairCheck(c.keyed.value, c.last.value, rec)
      case Some(e) => Failure(e)
      case None => Success(c.(last := Some(rec)))
    else
      Success(c.(last := Some(rec)))
  }

  /** Equal keys never trip the check. */
  lemma AddAcceptsEqualKey(o: SortOrder, prev: Record, rec: Record)
    requires HasKey(o.variant) && Resolves(o, prev) && Resolves(o, rec)
    requires SortKeyOf(o, rec).value == SortKeyOf(o, prev).value
    ensures Add(Checker(Some(prev), Some(o)), rec) == Success(Checker(Some(rec), Some(o)))
  {
  }

  /** The order-violation message carries both records' string forms. */
  lemma OutOfOrderMessageShowsBoth(prev: Record, rec: Record, show: Record -> string)
    ensures Contains(Message(OutOfOrder(prev, rec), show), show(prev))
    ensures Contains(Message(OutOfOrder(prev, rec), show), show(rec))
  {
    var head := "Records out of order\n";
    var msg := Message(OutOfOrder(prev, rec), show);
    assert msg == head + show(prev) + ("\n" + show(rec)) == (head + show(prev) + "\n") + show(rec);
    ContainsEnds(head + show(prev) + "\n", show(rec));
    ContainsMiddle(head, show(prev), "\n" + show(rec));
  }

  /** What the consumer of the enforcing iterator sees: the records yielded
      and, if iteration stopped early, the error raised. */
  datatype Outcome = Outcome(yielded: seq<Record>, failure: Option<SortError>)

  /** Pulling every element of `s` through `SortOrderEnforcingIterator.__next__`
      with checker `c`: each element is added to the checker and, if
      accepted, yielded unchanged. */
  function Feed(c: Checker, s: seq<Record>): (r: Outcome)
    ensures r.yielded <= s
    ensures r.failure.None? <==> r.yielded == s
    decreases |s|
  {
    if |s| == 0 then Outcome([], None)
    else
      match Add(c, s[0])
      case Failure(e) => Outcome([], Some(e))
      case Success(next) =>
        var rest := Feed(next, s[1..]);
        Outcome([s[0]] + rest.yielded, rest.failure)
  }

  /** `SortOrderEnforcingIterator(s, o)` consumed to the end or to its first
      error. */
  function Enforce(o: SortOrder, s: seq<Record>): (r: Outcome)
    ensures r.yielded <= s
    ensures |s| > 0 ==> |r.yielded| > 0
  {
    Feed(NewChecker(o), s)
  }

  // ----------------------------------------------------------------- lemmas

  lemma {:induction false} FeedUnkeyed(c: Checker, s: seq<Record>)
    requires c.keyed.None?
    ensures Feed(c, s) == Outcome(s, None)
    decreases |s|
  {
    if |s| > 0 {
      FeedUnkeyed(Checker(Some(s[0]), None), s[1..]);
      assert [s[0]] + s[1..] == s;
    }
  }

  /** Unknown and Unsorted never reject: the input comes back whole, in any
      order. */
  lemma EnforceUnkeyed(o: SortOrder, s: seq<Record>)
    requires !HasKey(o.variant)
    ensures Enforce(o, s) == Outcome(s, None)
  {
    FeedUnkeyed(NewChecker(o), s);
  }

  /** Every adjacent pair of `s` passes the check. */
  ghost predicate AdjacentOk(o: SortOrder, s: seq<Record>) {
    forall i :: 0 < i < |s| ==> PairCheck(o, s[i - 1], s[i]).None?
  }

  lemma AdjacentOkCons(o: SortOrder, p: Record, s: seq<Record>)
    requires |s| > 0
    ensures AdjacentOk(o, [p] + s) <==> PairCheck(o, p, s[0]).None? && AdjacentOk(o, s)
  {
    var full := [p] + s;
    assert full[0] == p;
    assert forall i | 0 < i < |full| :: full[i] == s[i - 1];
    if PairCheck(o, p, s[0]).None? && AdjacentOk(o, s) {
      forall i | 0 < i < |full| ensures PairCheck(o, full[i - 1], full[i]).None? {
        if i > 1 {
          assert full[i - 1] == s[i - 2] && full[i] == s[i - 1];
        }
      }
    }
    if AdjacentOk(o, full) {
      assert PairCheck(o, full[0], full[1]).None?;
      forall i | 0 < i < |s| ensures PairCheck(o, s[i - 1], s[i]).None? {
        assert full[i] == s[i - 1] && full[i + 1] == s[i];
      }
    }
  }

  /** `r` is what feeding `s` to a keyed checker holding `p` should give: it
      runs to the end exactly when every adjacent pair of `[p] + s` passes,
      and otherwise stops at the first pair that fails, with that pair's
      error. */
  ghost predicate StopsAtFirstFailure(o: SortOrder, p: Record, s: seq<Record>, r: Outcome) {
    && (r.failure.None? <==> AdjacentOk(o, [p] + s))
    && (r.failure.Some? ==>
          && |r.yielded| < |s|
          && AdjacentOk(o, ([p] + s)[..|r.yielded| + 1])
          && r.failure == PairCheck(o, ([p] + s)[|r.yielded|], ([p] + s)[|r.yielded| + 1]))
  }

  /** Feeding a keyed checker that already holds `p` stops exactly at the
      first failing pair. */
  lemma {:induction false} FeedFrom(o: SortOrder, p: Record, s: seq<Record>)
    requires HasKey(o.variant)
    ensures StopsAtFirstFailure(o, p, s, Feed(Checker(Some(p), Some(o)), s))
    decreases |s|
  {
    var full := [p] + s;
    var r := Feed(Checker(Some(p), Some(o)), s);
    if |s| == 0 {
      assert r.failure.None?;
    } else if PairCheck(o, p, s[0]).Some? {
      AdjacentOkCons(o, p, s);
      assert r == Outcome([], PairCheck(o, p, s[0]));
      assert full[..1] == [p];
    } else {
      FeedAcceptStep(o, p, s);
      FeedFrom(o, s[0], s[1..]);
      StopsAtFirstFailureCons(o, p, s, Feed(Checker(Some(s[0]), Some(o)), s[1..]));
    }
  }

  /** Accepting the first pair and carrying on from `s[0]`. */
  lemma StopsAtFirstFailureCons(o: SortOrder, p: Record, s: seq<Record>, rest: Outcome)
    requires |s| > 0 && PairCheck(o, p, s[0]).None?
    requires StopsAtFirstFailure(o, s[0], s[1..], rest)
    ensures StopsAtFirstFailure(o, p, s, Outcome([s[0]] + rest.yielded, rest.failure))
  {
    var full := [p] + s;
    var r := Outcome([s[0]] + rest.yielded, rest.failure);
    AdjacentOkCons(o, p, s);
    assert [s[0]] + s[1..] == s;
    assert rest.failure.None? <==> AdjacentOk(o, s);
    assert r.failure.None? <==> AdjacentOk(o, full);
    if rest.failure.Some? {
      var n := |rest.yielded|;
      assert AdjacentOk(o, s[..n + 1]);
      assert rest.failure == PairCheck(o, s[n], s[n + 1]);
      ShiftPrefix(o, p, s, n);
      assert |r.yielded| == n + 1;
    }
  }

  lemma FeedAcceptStep(o: SortOrder, p: Record, s: seq<Record>)
    requires |s| > 0 && PairCheck(o, p, s[0]).None?
    ensures var rest := Feed(Checker(Some(s[0]), Some(o)), s[1..]);
      Feed(Checker(Some(p), Some(o)), s) == Outcome([s[0]] + rest.yielded, rest.failure)
  {
  }

  lemma ShiftPrefix(o: SortOrder, p: Record, s: seq<Record>, n: nat)
    requires n + 1 < |s|
    requires PairCheck(o, p, s[0]).None? && AdjacentOk(o, s[..n + 1])
    ensures AdjacentOk(o, ([p] + s)[..n + 2])
    ensures ([p] + s)[n + 1] == s[n] && ([p] + s)[n + 2] == s[n + 1]
  {
    assert ([p] + s)[..n + 2] == [p] + s[..n + 1];
    AdjacentOkCons(o, p, s[..n + 1]);
  }

  /** The enforcing iterator on a keyed ordering: it yields the whole input
      exactly when every adjacent pair passes; otherwise it has yielded an
      unchanged, non-empty prefix whose pairs all pass and fails on the next
      element with the error of that element's pair. */
  lemma EnforceFirstFailure(o: SortOrder, s: seq<Record>)
    requires HasKey(o.variant)
    ensures var r := Enforce(o, s);
      && r.yielded == s[..|r.yielded|]
      && (r.failure.None? <==> AdjacentOk(o, s))
      && (r.failure.Some? ==>
            && 0 < |r.yielded| < |s|
            && AdjacentOk(o, s[..|r.yielded|])
            && r.failure == PairCheck(o, s[|r.yielded| - 1], s[|r.yielded|]))
  {
    if |s| > 0 {
      FeedFrom(o, s[0], s[1..]);
      assert [s[0]] + s[1..] == s;
    }
  }

  /** The keys of `s` never step down. */
  ghost predicate NonDecreasing(o: SortOrder, s: seq<Record>)
    requires AllResolve(o, s)
  {
    forall i :: 0 < i < |s| ==> !KeyBefore(KeyOf(o, s[i]), KeyOf(o, s[i - 1]))
  }

  /** When every record has a key, the iterator yields everything exactly
      when the keys never step down, and otherwise stops at the first step
      down with an order violation naming that pair. */
  lemma EnforceSorted(o: SortOrder, s: seq<Record>)
    requires HasKey(o.variant)
    requires AllResolve(o, s)
    ensures var r := Enforce(o, s);
      && (r.failure.None? <==> NonDecreasing(o, s))
      && (r.failure.Some? ==>
            var i := |r.yielded|;
            && 0 < i < |s|
            && r.yielded == s[..i]
            && NonDecreasing(o, s[..i])
            && KeyBefore(KeyOf(o, s[i]), KeyOf(o, s[i - 1]))
            && r.failure == Some(OutOfOrder(s[i - 1], s[i])))
  {
    EnforceFirstFailure(o, s);
    var r := Enforce(o, s);
    if r.failure.Some? {
      var i := |r.yielded|;
      assert forall k | 0 <= k < i :: s[..i][k] == s[k];
    }
  }

  lemma {:induction false} AdjacentToGlobal(o: SortOrder, s: seq<Record>)
    requires HasKey(o.variant)
    requires AllResolve(o, s)
    requires NonDecreasing(o, s)
    ensures forall i, j :: 0 <= i < j < |s| ==> !KeyBefore(KeyOf(o, s[j]), KeyOf(o, s[i]))
    decreases |s|
  {
    if |s| > 1 {
      var init := s[..|s| - 1];
      assert forall k | 0 <= k < |init| :: init[k] == s[k];
      AdjacentToGlobal(o, init);
      var last := |s| - 1;
      forall i | 0 <= i < last
        ensures !KeyBefore(KeyOf(o, s[last]), KeyOf(o, s[i]))
      {
        if i < last - 1 {
          assert init[i] == s[i] && init[last - 1] == s[last - 1];
          NotBeforeTransitive(KeyOf(o, s[i]), KeyOf(o, s[last - 1]), KeyOf(o, s[last]));
        }
      }
    }
  }

  /** The checker compares only neighbours, yet a fully accepted sequence is
      sorted: no later record's key is below an earlier one's. */
  lemma AcceptedIsSorted(o: SortOrder, s: seq<Record>)
    requires HasKey(o.variant)
    requires AllResolve(o, s)
    requires Enforce(o, s).failure.None?
    ensures forall i, j :: 0 <= i < j < |s| ==> !KeyBefore(KeyOf(o, s[j]), KeyOf(o, s[i]))
  {
    EnforceSorted(o, s);
    AdjacentToGlobal(o, s);
  }

  // ------------------------------------------------ resuming after an error

  /** What a caller sees who catches each error of the enforcing iterator and
      pulls again ("report and continue"): `__next__` has already taken the
      rejected record from the input, so it is lost, and `add` raised before
      storing it, so the next record is checked against the last accepted
      one. */
  datatype Resumed = Resumed(yielded: seq<Record>, errors: seq<SortError>)

  /** `ys` is `s` with some records left out, the rest in their order. */
  ghost predicate Subsequence<T>(ys: seq<T>, s: seq<T>)
    decreases |s|
  {
    |ys| == 0 || (|s| > 0 && ((ys[0] == s[0] && Subsequence(ys[1..], s[1..])) || Subsequence(ys, s[1..])))
  }

  /** Every record of `s` is either yielded, in input order, or reported;
      none is yielded that was not in the input, and with no error the
      input comes back whole. */
  function FeedResuming(c: Checker, s: seq<Record>): (r: Resumed)
    ensures |r.yielded| + |r.errors| == |s|
    ensures Subsequence(r.yielded, s)
    // a convenience corollary of the line above
    ensures forall i :: 0 <= i < |r.yielded| ==> r.yielded[i] in s
    ensures |r.errors| == 0 ==> r.yielded == s
    decreases |s|
  {
    if |s| == 0 then Resumed([], [])
    else
      match Add(c, s[0])
      case Failure(e) =>
        var rest := FeedResuming(c, s[1..]);
        assert |rest.yielded| > 0 ==> Subsequence(rest.yielded, s[1..]);
        Resumed(rest.yielded, [e] + rest.errors)
      case Success(next) =>
        var rest := FeedResuming(next, s[1..]);
        assert [s[0]] + s[1..] == s;
        assert ([s[0]] + rest.yielded)[1..] == rest.yielded;
        Resumed([s[0]] + rest.yielded, rest.errors)
  }

  /** The record a resuming caller's checker compares against once `ys` has
      been yielded: the last yielded one, else the one it started with. */
  function LastKept(c: Checker, ys: seq<Record>): Option<Record> {
    if |ys| > 0 then Some(ys[|ys| - 1]) else c.last
  }

  /** One more pull: `x` is checked against the last kept record; it is
      yielded when it passes, and its error is reported when it does not. */
  function Pull(c: Checker, r: Resumed, x: Record): Resumed {
    match Add(Checker(LastKept(c, r.yielded), c.keyed), x)
    case Success(_) => Resumed(r.yielded + [x], r.errors)
    case Failure(e) => Resumed(r.yielded, r.errors + [e])
  }

  /** Resuming, one record at a time: after `s`, the next record `x` is
      checked against the last record kept so far, never against a
      rejected one, and either extends the output or adds its own error. */
  lemma {:induction false} ResumingStep(c: Checker, s: seq<Record>, x: Record)
    ensures FeedResuming(c, s + [x]) == Pull(c, FeedResuming(c, s), x)
    decreases |s|
  {
    if |s| == 0 {
      assert s + [x] == [x];
      assert [x][1..] == [];
      assert Checker(LastKept(c, []), c.keyed) == c;
    } else {
      var t := s + [x];
      assert t[0] == s[0] && t[1..] == s[1..] + [x];
      match Add(c, s[0])
      case Failure(e) =>
        ResumingStep(c, s[1..], x);
        var q := FeedResuming(c, s[1..]);
        var p := Pull(c, q, x);
        assert FeedResuming(c, s) == Resumed(q.yielded, [e] + q.errors);
        assert FeedResuming(c, t) == Resumed(p.yielded, [e] + p.errors);
        PullPrependsError(c, q, x, e);
      case Success(next) =>
        ResumingStep(next, s[1..], x);
        var q := FeedResuming(next, s[1..]);
        var p := Pull(next, q, x);
        assert FeedResuming(c, s) == Resumed([s[0]] + q.yielded, q.errors);
        assert FeedResuming(c, t) == Resumed([s[0]] + p.yielded, p.errors);
        PullPrependsRecord(c, next, q, x, s[0]);
    }
  }

  /** An error reported before `r` does not change the next pull. */
  lemma PullPrependsError(c: Checker, r: Resumed, x: Record, e: SortError)
    ensures Pull(c, Resumed(r.yielded, [e] + r.errors), x)
         == Resumed(Pull(c, r, x).yielded, [e] + Pull(c, r, x).errors)
  {
    assert forall es: seq<SortError>, f: SortError :: ([e] + es) + [f] == [e] + (es + [f]);
  }

  /** A record yielded before `r`, and stored by the checker, does not
      change the next pull. */
  lemma PullPrependsRecord(c: Checker, next: Checker, r: Resumed, x: Record, y: Record)
    requires next == Checker(Some(y), c.keyed)
    ensures Pull(c, Resumed([y] + r.yielded, r.errors), x)
         == Resumed([y] + Pull(next, r, x).yielded, Pull(next, r, x).errors)
  {
    assert LastKept(c, [y] + r.yielded) == LastKept(next, r.yielded);
    assert ([y] + r.yielded) + [x] == [y] + (r.yielded + [x]);
  }

  /** Up to the first error, resuming and stopping agree: the stopping
      iterator's output is the start of the resuming one's, and its error
      is the first one reported. */
  lemma {:induction false} ResumingExtendsFeed(c: Checker, s: seq<Record>)
    ensures Feed(c, s).yielded <= FeedResuming(c, s).yielded
    ensures Feed(c, s).failure.None? ==> FeedResuming(c, s) == Resumed(s, [])
    ensures Feed(c, s).failure.Some? ==>
      |FeedResuming(c, s).errors| > 0 && FeedResuming(c, s).errors[0] == Feed(c, s).failure.value
    decreases |s|
  {
    if |s| > 0 {
      match Add(c, s[0])
      case Failure(e) =>
        var rest := FeedResuming(c, s[1..]);
        assert Feed(c, s) == Outcome([], Some(e));
        assert FeedResuming(c, s) == Resumed(rest.yielded, [e] + rest.errors);
      case Success(next) =>
        ResumingExtendsFeed(next, s[1..]);
        var f := Feed(next, s[1..]);
        var rest := FeedResuming(next, s[1..]);
        assert Feed(c, s) == Outcome([s[0]] + f.yielded, f.failure);
        assert FeedResuming(c, s) == Resumed([s[0]] + rest.yielded, rest.errors);
        assert [s[0]] + s[1..] == s;
    }
  }

  /** The records a keyed checker holding `last` would chain: `last` first,
      when there is one. */
  function Chain(last: Option<Record>, ys: seq<Record>): seq<Record> {
    if last.Some? then [last.value] + ys else ys
  }

  lemma NonDecreasingCons(o: SortOrder, p: Record, ys: seq<Record>)
    requires Resolves(o, p) && AllResolve(o, ys) && |ys| > 0
    ensures AllResolve(o, [p] + ys)
    ensures NonDecreasing(o, [p] + ys) <==> !KeyBefore(KeyOf(o, ys[0]), KeyOf(o, p)) && NonDecreasing(o, ys)
  {
    var full := [p] + ys;
    assert full[0] == p;
    assert forall i | 0 < i < |full| :: full[i] == ys[i - 1];
    if NonDecreasing(o, full) {
      assert !KeyBefore(KeyOf(o, full[1]), KeyOf(o, full[0]));
      forall i | 0 < i < |ys| ensures !KeyBefore(KeyOf(o, ys[i]), KeyOf(o, ys[i - 1])) {
        assert full[i] == ys[i - 1] && full[i + 1] == ys[i];
      }
    }
    if !KeyBefore(KeyOf(o, ys[0]), KeyOf(o, p)) && NonDecreasing(o, ys) {
      forall i | 0 < i < |full| ensures !KeyBefore(KeyOf(o, full[i]), KeyOf(o, full[i - 1])) {
        if i > 1 {
          assert full[i - 1] == ys[i - 2] && full[i] == ys[i - 1];
        }
      }
    }
  }

  lemma {:induction false} ResumingSortedFrom(o: SortOrder, last: Option<Record>, s: seq<Record>)
    requires HasKey(o.variant)
    requires AllResolve(o, s)
    requires last.Some? ==> Resolves(o, last.value)
    ensures var r := FeedResuming(Checker(last, Some(o)), s);
      AllResolve(o, Chain(last, r.yielded)) && NonDecreasing(o, Chain(last, r.yielded))
    decreases |s|
  {
    var c := Checker(last, Some(o));
    var r := FeedResuming(c, s);
    assert AllResolve(o, r.yielded);
    if last.Some? {
      assert Chain(last, r.yielded) == [last.value] + r.yielded;
      assert forall i | 0 < i < |[last.value] + r.yielded| :: ([last.value] + r.yielded)[i] == r.yielded[i - 1];
    }
    if |s| > 0 {
      assert forall i | 0 <= i < |s[1..]| :: s[1..][i] == s[i + 1];
      match Add(c, s[0])
      case Failure(e) =>
        ResumingSortedFrom(o, last, s[1..]);
      case Success(next) =>
        ResumingSortedFrom(o, Some(s[0]), s[1..]);
        var rest := FeedResuming(next, s[1..]);
        assert r.yielded == [s[0]] + rest.yielded;
        if last.Some? {
          NonDecreasingCons(o, last.value, r.yielded);
        }
    }
  }

  /** A caller who resumes after every error still gets records whose keys
      never step down, from first to last, when every record has a key. */
  lemma ResumingYieldsSorted(o: SortOrder, s: seq<Record>)
    requires HasKey(o.variant)
    requires AllResolve(o, s)
    ensures var ys := FeedResuming(NewChecker(o), s).yielded;
      && AllResolve(o, ys)
      && forall i, j :: 0 <= i < j < |ys| ==> !KeyBefore(KeyOf(o, ys[j]), KeyOf(o, ys[i]))
  {
    ResumingSortedFrom(o, None, s);
    AdjacentToGlobal(o, FeedResuming(NewChecker(o), s).yielded);
  }
}

=== FILE: comparison.dfy ===
/** The null-aware three-way compare every sort key is built from. */
module Comparison {
  import opened Wrappers

  /** `less` is a strict total order on `T`. */
  ghost predicate StrictTotalOrder<T(!new)>(less: (T, T) -> bool) {
    && (forall x :: !less(x, x))
    && (forall x, y, z :: less(x, y) && less(y, z) ==> less(x, z))
    && (forall x, y :: x != y ==> less(x, y) || less(y, x))
  }

  /** The order `Compare` induces on nullable values: any value before null. */
  predicate NullsLast<T>(a: Option<T>, b: Option<T>, less: (T, T) -> bool) {
    a.Some? && (b.None? || less(a.value, b.value))
  }

  /** Two nulls are equal, null sorts after every value, and two values give
      `(a > b) - (a < b)`: the sign of their natural order. */
  function Compare<T(!new)>(a: Option<T>, b: Option<T>, less: (T, T) -> bool): (r: int)
    ensures -1 <= r <= 1
    ensures a.None? && b.None? ==> r == 0
    ensures a.None? && b.Some? ==> r == 1
    ensures a.Some? && b.None? ==> r == -1
    ensures StrictTotalOrder(less) ==>
      && (r < 0 <==> NullsLast(a, b, less))
      && (r == 0 <==> a == b)
      && (r > 0 <==> NullsLast(b, a, less))
  {
    if a.None? && b.None? then 0
    else if a.None? then 1
    else if b.None? then -1
    else (if less(b.value, a.value) then 1 else 0) - (if less(a.value, b.value) then 1 else 0)
  }

  /** Swapping the operands negates the result, whatever `less` is. */
  lemma CompareAntisymmetric<T(!new)>(a: Option<T>, b: Option<T>, less: (T, T) -> bool)
    ensures Compare(a, b, less) == -Compare(b, a, less)
  {
  }

  /** `NullsLast` is transitive when `less` is a strict total order. */
  lemma NullsLastTransitive<T(!new)>(a: Option<T>, b: Option<T>, c: Option<T>, less: (T, T) -> bool)
    requires StrictTotalOrder(less)
    requires NullsLast(a, b, less) && NullsLast(b, c, less)
    ensures NullsLast(a, c, less)
  {
  }
}

=== FILE: keys.dfy ===
/** Sort keys: the coordinate key (chromosome, start, end) and the barcodes
    key, which puts (tumor barcode, normal barcode) in front of a coordinate
    key. */
module Keys {
  import opened Wrappers
  import opened Text
  import opened Comparison

  /** A key's chromosome: its rank in the configured contig list, or the
      name itself when no list is configured. */
  datatype Chrom = Rank(index: nat) | Named(name: string)

  /** Ranks compare as integers, names as Python strings. One ordering never
      mixes the two; ranks are put first only to keep the order total. */
  predicate ChromLess(a: Chrom, b: Chrom) {
    match (a, b)
    case (Rank(i), Rank(j)) => i < j
    case (Named(x), Named(y)) => Less(x, y)
    case (Rank(_), Named(_)) => true
    case (Named(_), Rank(_)) => false
  }

  predicate IntLess(a: int, b: int) {
    a < b
  }

  lemma TextLessIsStrictTotal()
    ensures StrictTotalOrder(Less)
  {
    forall x: string ensures !Less(x, x) {
      LessIrreflexive(x);
    }
    forall x: string, y: string, z: string | Less(x, y) && Less(y, z) ensures Less(x, z) {
      LessTransitive(x, y, z);
    }
    forall x: string, y: string | x != y ensures Less(x, y) || Less(y, x) {
      LessConnected(x, y);
    }
  }

  lemma ChromLessIsStrictTotal()
    ensures StrictTotalOrder(ChromLess)
  {
    TextLessIsStrictTotal();
    forall x: Chrom, y: Chrom, z: Chrom | ChromLess(x, y) && ChromLess(y, z) ensures ChromLess(x, z) {
      if x.Named? && y.Named? && z.Named? {
        LessTransitive(x.name, y.name, z.name);
      }
    }
    forall x: Chrom, y: Chrom | x != y ensures ChromLess(x, y) || ChromLess(y, x) {
      if x.Named? && y.Named? {
        LessConnected(x.name, y.name);
      }
    }
  }

  lemma IntLessIsStrictTotal()
    ensures StrictTotalOrder(IntLess)
  {
  }

  datatype CoordinateKey = CoordinateKey(chromosome: Chrom, start: int, end: int)

  /** Lexicographic order on (chromosome, start, end). */
  predicate CoordinateBefore(a: CoordinateKey, b: CoordinateKey) {
    || ChromLess(a.chromosome, b.chromosome)
    || (a.chromosome == b.chromosome && a.start < b.start)
    || (a.chromosome == b.chromosome && a.start == b.start && a.end < b.end)
  }

  /** `_CoordinateKey.__cmp__`: chromosome, then start, then end, the first
      non-zero comparison deciding. */
  function CompareCoordinates(a: CoordinateKey, b: CoordinateKey): (r: int)
    ensures -1 <= r <= 1
    ensures r < 0 <==> CoordinateBefore(a, b)
    ensures r == 0 <==> a == b
    ensures r > 0 <==> CoordinateBefore(b, a)
  {
    ChromLessIsStrictTotal();
    IntLessIsStrictTotal();
    var byChromosome := Compare(Some(a.chromosome), Some(b.chromosome), ChromLess);
    var byStart := if byChromosome == 0 then Compare(Some(a.start), Some(b.start), IntLess) else byChromosome;
    if byStart == 0 then Compare(Some(a.end), Some(b.end), IntLess) else byStart
  }

  /** A key produced by an ordering's key function. */
  datatype SortKey =
    | CoordinateOnly(coord: CoordinateKey)
    | WithBarcodes(tumor: Option<string>, normal: Option<string>, coord: CoordinateKey)

  /** Keys derived by one ordering are all of one kind. */
  predicate SameKind(a: SortKey, b: SortKey) {
    a.WithBarcodes? == b.WithBarcodes?
  }

  /** The order the keys stand for: barcodes keys are lexicographic on
      (tumor, normal, coordinate) with a null barcode after every value. */
  predicate KeyBefore(a: SortKey, b: SortKey) {
    if a.WithBarcodes? && b.WithBarcodes? then
      || NullsLast(a.tumor, b.tumor, Less)
      || (a.tumor == b.tumor && NullsLast(a.normal, b.normal, Less))
      || (a.tumor == b.tumor && a.normal == b.normal && CoordinateBefore(a.coord, b.coord))
    else
      CoordinateBefore(a.coord, b.coord)
  }

  /** `__cmp__` of either key type: a barcodes key compares the tumor
      barcode, then the normal barcode, then defers to the coordinate key. */
  function KeyCompare(a: SortKey, b: SortKey): (r: int)
    requires SameKind(a, b)
    ensures -1 <= r <= 1
    ensures r < 0 <==> KeyBefore(a, b)
    ensures r == 0 <==> a == b
    ensures r > 0 <==> KeyBefore(b, a)
  {
    TextLessIsStrictTotal();
    match a
    case CoordinateOnly(_) => CompareCoordinates(a.coord, b.coord)
    case WithBarcodes(_, _, _) =>
      var byTumor := Compare(a.tumor, b.tumor, Less);
      var byNormal := if byTumor == 0 then Compare(a.normal, b.normal, Less) else byTumor;
      if byNormal == 0 then CompareCoordinates(a.coord, b.coord) else byNormal
  }

  /** `SortOrderKey.__lt__`. */
  function KeyLess(a: SortKey, b: SortKey): (r: bool)
    requires SameKind(a, b)
    ensures r <==> KeyBefore(a, b)
  {
    KeyCompare(a, b) < 0
  }

  /** `SortOrderKey.__eq__`. */
  function KeyEqual(a: SortKey, b: SortKey): (r: bool)
    requires SameKind(a, b)
    ensures r <==> a == b
  {
    KeyCompare(a, b) == 0
  }

  /** A difference in chromosome decides the coordinate compare whatever
      the starts and ends are. */
  lemma ChromosomeDecides(a: CoordinateKey, b: CoordinateKey, aStart: int, aEnd: int, bStart: int, bEnd: int)
    requires a.chromosome != b.chromosome
    ensures CompareCoordinates(a, b) != 0
    ensures CompareCoordinates(a, b)
         == CompareCoordinates(CoordinateKey(a.chromosome, aStart, aEnd), CoordinateKey(b.chromosome, bStart, bEnd))
  {
  }

  /** With equal chromosomes the start decides; with equal chromosome and
      start, the end does. */
  lemma StartThenEnd(a: CoordinateKey, b: CoordinateKey)
    requires a.chromosome == b.chromosome
    ensures a.start != b.start ==> CompareCoordinates(a, b) == (if a.start < b.start then -1 else 1)
    ensures a.start == b.start ==> CompareCoordinates(a, b) == (if a.end < b.end then -1 else if a.end == b.end then 0 else 1)
  {
  }

  /** The barcodes decide a barcodes-key compare on their own; only when both
      are equal (both null included) does the coordinate compare speak. */
  lemma BarcodesFirst(a: SortKey, b: SortKey)
    requires a.WithBarcodes? && b.WithBarcodes?
    ensures a.tumor != b.tumor ==> KeyCompare(a, b) == Compare(a.tumor, b.tumor, Less) != 0
    ensures a.tumor == b.tumor && a.normal != b.normal ==> KeyCompare(a, b) == Compare(a.normal, b.normal, Less) != 0
    ensures a.tumor == b.tumor && a.normal == b.normal ==> KeyCompare(a, b) == CompareCoordinates(a.coord, b.coord)
  {
  }

  lemma CoordinateBeforeTransitive(a: CoordinateKey, b: CoordinateKey, c: CoordinateKey)
    requires CoordinateBefore(a, b) && CoordinateBefore(b, c)
    ensures CoordinateBefore(a, c)
  {
    ChromLessIsStrictTotal();
  }

  /** `KeyBefore` is a strict total order on keys of one kind. */
  lemma KeyBeforeIrreflexiveConnected(a: SortKey, b: SortKey)
    requires SameKind(a, b)
    ensures !KeyBefore(a, a)
    ensures KeyBefore(a, b) ==> !KeyBefore(b, a)
    ensures a != b ==> KeyBefore(a, b) || KeyBefore(b, a)
  {
    var _ := KeyCompare(a, a);
    var _ := KeyCompare(a, b);
  }

  lemma BarcodesBeforeTransitive(a: SortKey, b: SortKey, c: SortKey)
    requires a.WithBarcodes? && b.WithBarcodes? && c.WithBarcodes?
    requires KeyBefore(a, b) && KeyBefore(b, c)
    ensures KeyBefore(a, c)
  {
    TextLessIsStrictTotal();
    if a.tumor != b.tumor && b.tumor != c.tumor {
      NullsLastTransitive(a.tumor, b.tumor, c.tumor, Less);
    } else if a.tumor != b.tumor || b.tumor != c.tumor {
      assert NullsLast(a.tumor, c.tumor, Less);
    } else if a.normal != b.normal && b.normal != c.normal {
      NullsLastTransitive(a.normal, b.normal, c.normal, Less);
    } else if a.normal != b.normal || b.normal != c.normal {
      assert NullsLast(a.normal, c.normal, Less);
    } else {
      CoordinateBeforeTransitive(a.coord, b.coord, c.coord);
    }
  }

  lemma KeyBeforeTransitive(a: SortKey, b: SortKey, c: SortKey)
    requires SameKind(a, b) && SameKind(b, c)
    requires KeyBefore(a, b) && KeyBefore(b, c)
    ensures KeyBefore(a, c)
  {
    if a.WithBarcodes? {
      BarcodesBeforeTransitive(a, b, c);
    } else {
      CoordinateBeforeTransitive(a.coord, b.coord, c.coord);
    }
  }

  /** "Not before" chains: the checker's adjacent comparisons add up to a
      sorted sequence. */
  lemma NotBeforeTransitive(a: SortKey, b: SortKey, c: SortKey)
    requires SameKind(a, b) && SameKind(b, c)
    requires !KeyBefore(b, a) && !KeyBefore(c, b)
    ensures !KeyBefore(c, a)
  {
    KeyBeforeIrreflexiveConnected(a, b);
    KeyBeforeIrreflexiveConnected(b, c);
    KeyBeforeIrreflexiveConnected(a, c);
    if a != b && b != c {
      KeyBeforeTransitive(a, b, c);
    }
  }
}

=== FILE: sort_order.dfy ===
/** The sort orders: the registry of named variants, an instance with its
    optional contig list, and the key function each variant provides. */
module SortOrders {
  import opened Wrappers
  import opened Text
  import opened Keys

  /** What an ordering needs of a record: its location (`Locatable`) and the
      two barcode columns read through `record.value(name)`, either of
      which may be null. */
  datatype Record = Record(
    chromosome: string,
    start: int,
    end: int,
    tumorBarcode: Option<string>,
    normalBarcode: Option<string>)

  datatype SortError =
    | UnknownOrdering(name: string, options: seq<string>)
    | NotSupported(order: string)
    | UnknownContig(contig: string, contigs: seq<string>)
    | OutOfOrder(previous: Record, current: Record)

  /** The text of each error; `show` is the record's own string form. The
      opening words tell the four kinds of error apart. */
  function Message(e: SortError, show: Record -> string): (r: string)
    ensures e.UnknownOrdering? <==> "Could not find sort order '" <= r
    ensures e.NotSupported? <==> "Sorting not supported for " <= r
    ensures e.UnknownContig? <==> "Could not find contig '" <= r
    ensures e.OutOfOrder? <==> "Records out of order\n" <= r
  {
    match e
    case UnknownOrdering(name, options) =>
      var r := "Could not find sort order '" + name + "', options: " + Join(options, ", ");
      LeadDiffers("Could not find sort order '", "Sorting not supported for ", r, 0);
      LeadDiffers("Could not find sort order '", "Could not find contig '", r, 15);
      LeadDiffers("Could not find sort order '", "Records out of order\n", r, 0);
      r
    case NotSupported(order) =>
      var r := "Sorting not supported for " + order + " order.";
      LeadDiffers("Sorting not supported for ", "Could not find sort order '", r, 0);
      LeadDiffers("Sorting not supported for ", "Could not find contig '", r, 0);
      LeadDiffers("Sorting not supported for ", "Records out of order\n", r, 0);
      r
    case UnknownContig(contig, contigs) =>
      var r := "Could not find contig '" + contig + "' in list of contigs: " + Join(contigs, ", ");
      LeadDiffers("Could not find contig '", "Could not find sort order '", r, 15);
      LeadDiffers("Could not find contig '", "Sorting not supported for ", r, 0);
      LeadDiffers("Could not find contig '", "Records out of order\n", r, 0);
      r
    case OutOfOrder(previous, current) =>
      var r := "Records out of order\n" + show(previous) + "\n" + show(current);
      LeadDiffers("Records out of order\n", "Could not find sort order '", r, 0);
      LeadDiffers("Records out of order\n", "Sorting not supported for ", r, 0);
      LeadDiffers("Records out of order\n", "Could not find contig '", r, 0);
      r
  }

  /** A text that opens with `lead` does not open with `other` when the two
      differ at position `k`. */
  lemma LeadDiffers(lead: string, other: string, r: string, k: nat)
    requires k < |lead| && k < |other| && lead[k] != other[k]
    requires lead <= r
    ensures !(other <= r)
  {
  }

  // ---------------------------------------------------------------- registry

  datatype Variant = Unknown | Unsorted | BarcodesAndCoordinate | Coordinate

  /** The class name each variant's `name()` reports: a non-empty run of
      ASCII letters starting with a capital. */
  function Name(v: Variant): (r: string)
    ensures |r| > 0 && 'A' <= r[0] <= 'Z'
    ensures forall k :: 0 <= k < |r| ==> 'A' <= r[k] <= 'Z' || 'a' <= r[k] <= 'z'
  {
    match v
    case Unknown => "Unknown"
    case Unsorted => "Unsorted"
    case BarcodesAndCoordinate => "BarcodesAndCoordinate"
    case Coordinate => "Coordinate"
  }

  /** `SortOrder.all()`, in its declared order. */
  function All(): (r: seq<Variant>)
    ensures |r| == 4
    ensures forall i, j :: 0 <= i < j < |r| ==> Name(r[i]) != Name(r[j])
  {
    [Unknown, Unsorted, BarcodesAndCoordinate, Coordinate]
  }

  /** The registry is complete: every variant is registered, under a name
      no other variant has. */
  lemma AllRegistered(v: Variant, w: Variant)
    ensures v in All()
    ensures Name(v) == Name(w) ==> v == w
  {
  }

  function NamesOf(vs: seq<Variant>): (names: seq<string>)
    ensures |names| == |vs|
    ensures forall i :: 0 <= i < |vs| ==> names[i] == Name(vs[i])
  {
    if |vs| == 0 then [] else [Name(vs[0])] + NamesOf(vs[1..])
  }

  /** The first of `vs` named `name`, if any. */
  function FirstNamed(vs: seq<Variant>, name: string): (r: Option<Variant>)
    ensures r.Some? ==> exists i :: 0 <= i < |vs| && vs[i] == r.value && Name(vs[i]) == name
                                && forall j :: 0 <= j < i ==> Name(vs[j]) != name
    ensures r.None? ==> forall v :: v in vs ==> Name(v) != name
  {
    if |vs| == 0 then None
    else if Name(vs[0]) == name then Some(vs[0])
    else
      var r := FirstNamed(vs[1..], name);
      if r.Some? then
        var i :| 0 <= i < |vs| - 1 && vs[1..][i] == r.value && Name(vs[1..][i]) == name
                 && forall j :: 0 <= j < i ==> Name(vs[1..][j]) != name;
        assert vs[i + 1] == r.value && forall j :: 0 <= j < i + 1 ==> Name(vs[j]) != name;
        r
      else r
  }

  /** `SortOrder.find`: exact, case-sensitive name match over the registry;
      no match is an error listing every registered name. */
  function Find(name: string): (r: Result<Variant, SortError>)
    ensures r.Success? <==> exists v: Variant :: Name(v) == name
    ensures r.Success? ==> Name(r.value) == name
    ensures r.Failure? ==> r.error == UnknownOrdering(name, NamesOf(All()))
  {
    assert forall v: Variant :: v in All() by {
      forall v: Variant ensures v in All() {
        AllRegistered(v, v);
      }
    }
    match FirstNamed(All(), name)
    case Some(v) => Success(v)
    case None => Failure(UnknownOrdering(name, NamesOf(All())))
  }

  /** Every registered variant is found again under its own name. */
  lemma FindByName(v: Variant)
    ensures Find(Name(v)) == Success(v)
  {
  }

  /** A failed lookup names the requested text and every registered name. */
  lemma FindFailureListsNames(name: string, show: Record -> string, i: int)
    requires Find(name).Failure?
    requires 0 <= i < |All()|
    ensures Contains(Message(Find(name).error, show), name)
    ensures Contains(Message(Find(name).error, show), Name(All()[i]))
  {
    UnknownOrderingMessage(name, NamesOf(All()), show, i);
  }

  lemma UnknownOrderingMessage(name: string, options: seq<string>, show: Record -> string, i: int)
    requires 0 <= i < |options|
    ensures Contains(Message(UnknownOrdering(name, options), show), name)
    ensures Contains(Message(UnknownOrdering(name, options), show), options[i])
  {
    var list := Join(options, ", ");
    var head := "Could not find sort order '";
    assert Message(UnknownOrdering(name, options), show) == head + name + ("', options: " + list);
    ContainsMiddle(head, name, "', options: " + list);
    JoinContainsEach(options, ", ", i);
    ContainsAfter(head + name + "', options: ", list, options[i]);
  }

  // ---------------------------------------------------------- contig index

  predicate IsLineEnd(c: char) {
    c == '\r' || c == '\n'
  }

  /** `line.rstrip("\r\n")`: drop every trailing CR and LF. */
  function StripLineEnd(s: string): (r: string)
    ensures r <= s
    ensures |r| == 0 || !IsLineEnd(r[|r| - 1])
    ensures forall k :: |r| <= k < |s| ==> IsLineEnd(s[k])
    decreases |s|
  {
    if |s| > 0 && IsLineEnd(s[|s| - 1]) then StripLineEnd(s[..|s| - 1]) else s
  }

  /** `s.split("\t")[0]`: the text before the first tab, or all of it. */
  function BeforeTab(s: string): (r: string)
    ensures r <= s
    ensures '\t' !in r
    ensures |r| < |s| ==> s[|r|] == '\t'
    decreases |s|
  {
    if |s| == 0 || s[0] == '\t' then "" else [s[0]] + BeforeTab(s[1..])
  }

  /** The contig a FASTA index line names: its first tab-separated column. */
  function IndexLineContig(line: string): (r: string)
    ensures r <= line && '\t' !in r
    ensures |r| < |line| ==> line[|r|] == '\t' || IsLineEnd(line[|r|])
  {
    BeforeTab(StripLineEnd(line))
  }

  lemma {:induction false} BeforeTabOfField(field: string, s: string)
    requires '\t' !in field
    requires field + "\t" <= s
    ensures BeforeTab(s) == field
    decreases |field|
  {
    if |field| > 0 {
      assert s[0] == field[0];
      assert field[1..] + "\t" <= s[1..];
      BeforeTabOfField(field[1..], s[1..]);
    }
  }

  lemma {:induction false} StripLineEndOf(text: string, ending: string)
    requires |text| == 0 || !IsLineEnd(text[|text| - 1])
    requires forall k :: 0 <= k < |ending| ==> IsLineEnd(ending[k])
    ensures StripLineEnd(text + ending) == text
    decreases |ending|
  {
    if |ending| > 0 {
      var line := text + ending;
      assert line[|line| - 1] == ending[|ending| - 1];
      assert line[..|line| - 1] == text + ending[..|ending| - 1];
      StripLineEndOf(text, ending[..|ending| - 1]);
    } else {
      assert text + ending == text;
    }
  }

  /** A line written as name, tab, other columns, line end reads back as its
      name. */
  lemma IndexLineRoundTrip(name: string, rest: string)
    requires '\t' !in name
    ensures IndexLineContig(name + "\t" + rest) == name
  {
    var line := name + "\t" + rest;
    var stripped := StripLineEnd(line);
    assert !IsLineEnd(line[|name|]);
    assert stripped[..|name| + 1] == line[..|name| + 1] == name + "\t";
    BeforeTabOfField(name, stripped);
  }

  /** A single-column line reads back as its text without the line end. */
  lemma IndexLineSingleColumn(name: string, ending: string)
    requires '\t' !in name
    requires |name| == 0 || !IsLineEnd(name[|name| - 1])
    requires forall k :: 0 <= k < |ending| ==> IsLineEnd(ending[k])
    ensures IndexLineContig(name + ending) == name
  {
    StripLineEndOf(name, ending);
  }

  /** An ordering instance: its variant and its contig list. A list that is
      absent or empty means chromosomes compare by name. */
  datatype SortOrder = SortOrder(variant: Variant, contigs: Option<seq<string>>)

  /** The orderings that provide a key function. */
  predicate HasKey(v: Variant) {
    v == Coordinate || v == BarcodesAndCoordinate
  }

  /** A contig list is in force only when present and non-empty. */
  predicate Ranked(contigs: Option<seq<string>>) {
    contigs.Some? && |contigs.value| > 0
  }

  /** Constructing an ordering. `fastaIndex` holds the lines of the index file
      when a path is given (reading it is outside the model); `contigs` is
      the explicit list. The index wins over the list, an empty list counts as
      none, and Unknown/Unsorted ignore both. */
  function Instantiate(v: Variant, fastaIndex: Option<seq<string>>, contigs: Option<seq<string>>): (o: SortOrder)
    ensures o.variant == v
    ensures !HasKey(v) ==> o.contigs.None?
    ensures HasKey(v) && fastaIndex.Some? ==>
      && o.contigs.Some?
      && |o.contigs.value| == |fastaIndex.value|
      && forall i :: 0 <= i < |fastaIndex.value| ==> o.contigs.value[i] == IndexLineContig(fastaIndex.value[i])
    ensures HasKey(v) && fastaIndex.None? ==> (o.contigs.Some? <==> Ranked(contigs))
    ensures HasKey(v) && fastaIndex.None? && Ranked(contigs) ==> o.contigs == contigs
  {
    if !HasKey(v) then SortOrder(v, None)
    else if fastaIndex.Some? then
      SortOrder(v, Some(seq(|fastaIndex.value|, i requires 0 <= i < |fastaIndex.value| => IndexLineContig(fastaIndex.value[i]))))
    else if Ranked(contigs) then SortOrder(v, contigs)
    else SortOrder(v, None)
  }

  // ---------------------------------------------------- chromosome ranking

  /** `list.index`: the position of the first occurrence. */
  function IndexOf(xs: seq<string>, x: string): (i: nat)
    requires x in xs
    ensures i < |xs| && xs[i] == x
    ensures forall j :: 0 <= j < i ==> xs[j] != x
  {
    if xs[0] == x then 0 else IndexOf(xs[1..], x) + 1
  }

  /** The chromosome a coordinate key holds: the rank of the record's
      chromosome when a contig list is in force, its name otherwise. */
  function ResolveChromosome(contigs: Option<seq<string>>, chromosome: string): (r: Result<Chrom, SortError>)
    ensures !Ranked(contigs) ==> r == Success(Named(chromosome))
    ensures Ranked(contigs) ==> (r.Success? <==> chromosome in contigs.value)
    ensures Ranked(contigs) && r.Success? ==>
      && r.value.Rank?
      && r.value.index < |contigs.value|
      && contigs.value[r.value.index] == chromosome
      && forall j :: 0 <= j < r.value.index ==> contigs.value[j] != chromosome
    ensures Ranked(contigs) && r.Failure? ==> r.error == UnknownContig(chromosome, contigs.value)
  {
    if !Ranked(contigs) then Success(Named(chromosome))
    else if chromosome in contigs.value then Success(Rank(IndexOf(contigs.value, chromosome)))
    else Failure(UnknownContig(chromosome, contigs.value))
  }

  /** The key function of an ordering applied to one record. Unknown and
      Unsorted have none. */
  function SortKeyOf(o: SortOrder, rec: Record): (r: Result<SortKey, SortError>)
    ensures !HasKey(o.variant) ==> r == Failure(NotSupported(Name(o.variant)))
    ensures HasKey(o.variant) ==> (r.Success? <==> ResolveChromosome(o.contigs, rec.chromosome).Success?)
    ensures r.Success? ==>
      && r.value.coord == CoordinateKey(ResolveChromosome(o.contigs, rec.chromosome).value, rec.start, rec.end)
      && (r.value.WithBarcodes? <==> o.variant == BarcodesAndCoordinate)
      && (r.value.WithBarcodes? ==> r.value.tumor == rec.tumorBarcode && r.value.normal == rec.normalBarcode)
  {
    if !HasKey(o.variant) then Failure(NotSupported(Name(o.variant)))
    else
      var chromosome :- ResolveChromosome(o.contigs, rec.chromosome);
      var coord := CoordinateKey(chromosome, rec.start, rec.end);
      if o.variant == Coordinate then Success(CoordinateOnly(coord))
      else Success(WithBarcodes(rec.tumorBarcode, rec.normalBarcode, coord))
  }

  /** Under a contig list, a record on an earlier contig sorts before one on
      a later contig, whatever their starts and ends. */
  lemma EarlierContigFirst(contigs: seq<string>, i: int, j: int, a: Record, b: Record)
    requires 0 <= i < j < |contigs|
    requires forall k :: 0 <= k < j ==> contigs[k] != contigs[j]
    requires a.chromosome == contigs[i] && b.chromosome == contigs[j]
    ensures SortKeyOf(SortOrder(Coordinate, Some(contigs)), a).Success?
    ensures SortKeyOf(SortOrder(Coordinate, Some(contigs)), b).Success?
    ensures KeyCompare(SortKeyOf(SortOrder(Coordinate, Some(contigs)), a).value,
                       SortKeyOf(SortOrder(Coordinate, Some(contigs)), b).value) == -1
  {
  }

  /** A chromosome missing from the contig list fails, and the message names
      it and every contig in the list. */
  lemma UnknownContigMessage(o: SortOrder, rec: Record, show: Record -> string, i: int)
    requires HasKey(o.variant) && Ranked(o.contigs)
    requires rec.chromosome !in o.contigs.value
    requires 0 <= i < |o.contigs.value|
    ensures SortKeyOf(o, rec) == Failure(UnknownContig(rec.chromosome, o.contigs.value))
    ensures Contains(Message(SortKeyOf(o, rec).error, show), rec.chromosome)
    ensures Contains(Message(SortKeyOf(o, rec).error, show), o.contigs.value[i])
  {
    var list := Join(o.contigs.value, ", ");
    var head := "Could not find contig '";
    var msg := Message(UnknownContig(rec.chromosome, o.contigs.value), show);
    assert msg == head + rec.chromosome + ("' in list of contigs: " + list);
    ContainsMiddle(head, rec.chromosome, "' in list of contigs: " + list);
    JoinContainsEach(o.contigs.value, ", ", i);
    ContainsAfter(head + rec.chromosome + "' in list of contigs: ", list, o.contigs.value[i]);
  }
}

=== FILE: text.dfy ===
/** Strings as Python compares and joins them. */
module Text {

  /** Python's `a < b` on `str`: lexicographic by code point, a proper prefix
      first. (Dafny's own `<` on sequences means "proper prefix" only.) */
  predicate Less(a: string, b: string)
    decreases |a|
  {
    if |b| == 0 then false
    else if |a| == 0 then true
    else if a[0] != b[0] then a[0] < b[0]
    else Less(a[1..], b[1..])
  }

  lemma {:induction false} LessIrreflexive(a: string)
    ensures !Less(a, a)
    decreases |a|
  {
    if |a| > 0 {
      LessIrreflexive(a[1..]);
    }
  }

  lemma {:induction false} LessTransitive(a: string, b: string, c: string)
    requires Less(a, b) && Less(b, c)
    ensures Less(a, c)
    decreases |a|
  {
    if |a| > 0 && a[0] == b[0] && b[0] == c[0] {
      LessTransitive(a[1..], b[1..], c[1..]);
    }
  }

  lemma {:induction false} LessConnected(a: string, b: string)
    requires a != b
    ensures Less(a, b) || Less(b, a)
    decreases |a|
  {
    if |a| > 0 && |b| > 0 && a[0] == b[0] {
      assert a == [a[0]] + a[1..] && b == [b[0]] + b[1..];
      LessConnected(a[1..], b[1..]);
    }
  }

  /** A proper prefix sorts first under Python's order as well. */
  lemma {:induction false} ProperPrefixIsLess(a: string, b: string)
    requires a < b
    ensures Less(a, b)
    decreases |a|
  {
    if |a| > 0 {
      assert a[0] == b[0];
      assert a[1..] < b[1..];
      ProperPrefixIsLess(a[1..], b[1..]);
    }
  }

  /** `sep.join(parts)`. */
  function Join(parts: seq<string>, sep: string): (r: string)
    ensures |parts| == 1 ==> r == parts[0]
    decreases |parts|
  {
    if |parts| == 0 then ""
    else if |parts| == 1 then parts[0]
    else parts[0] + sep + Join(parts[1..], sep)
  }

  /** `part in whole` on Python strings: `part` occurs somewhere in `whole`. */
  ghost predicate Contains(whole: string, part: string) {
    exists k :: 0 <= k <= |whole| && part <= whole[k..]
  }

  lemma ContainsMiddle(pre: string, part: string, post: string)
    ensures Contains(pre + part + post, part)
  {
    var whole := pre + part + post;
    assert whole[|pre|..] == part + post;
  }

  lemma ContainsAfter(pre: string, s: string, part: string)
    requires Contains(s, part)
    ensures Contains(pre + s, part)
  {
    var k :| 0 <= k <= |s| && part <= s[k..];
    assert (pre + s)[|pre| + k..] == s[k..];
  }

  lemma ContainsEnds(x: string, y: string)
    ensures Contains(x + y, x)
    ensures Contains(x + y, y)
  {
    assert (x + y)[0..] == x + y;
    assert (x + y)[|x|..] == y;
  }

  /** Every joined part can be read back out of the joined text. */
  lemma {:induction false} JoinContainsEach(parts: seq<string>, sep: string, i: int)
    requires 0 <= i < |parts|
    ensures Contains(Join(parts, sep), parts[i])
    decreases |parts|
  {
    if |parts| == 1 {
      ContainsMiddle("", parts[0], "");
      assert "" + parts[0] + "" == parts[0];
    } else if i == 0 {
      ContainsMiddle("", parts[0], sep + Join(parts[1..], sep));
      assert "" + parts[0] + (sep + Join(parts[1..], sep)) == Join(parts, sep);
    } else {
      JoinContainsEach(parts[1..], sep, i - 1);
      ContainsAfter(parts[0] + sep, Join(parts[1..], sep), parts[i]);
    }
  }
}

=== FILE: wrappers.dfy ===
/** Failure-compatible wrappers: `Option` stands for Python's `None`-or-value,
    `Result` for a value or a raised error. */
module Wrappers {

  datatype Option<+T> = None | Some(value: T)

  datatype Result<+T, +E> = Success(value: T) | Failure(error: E) {

    predicate IsFailure() {
      Failure?
    }

    function PropagateFailure<U>(): Result<U, E>
      requires Failure?
    {
      Failure(error)
    }

    function Extract(): T
      requires Success?
    {
      value
    }
  }
}
